=== FILE: README.md ===
# miniserve file upload, modelled in Dafny

This project models the upload handler of miniserve, a small static file server
(`src/file_upload.rs`). A POST to the upload route carries a `path` query parameter, an
optional `Referer` header and a `multipart/form-data` body. The handler works in this order:

1. It picks the page to return to.
2. It rejects a missing `path`.
3. It strips a leading `/` from `path`.
4. It joins the result onto the canonicalized served directory, canonicalizes the join, and
   accepts the target only if it starts, component by component, with the served directory.
5. It walks the multipart items in body order, flattening nested containers, all under that
   target. For each field it extracts the filename from the Content-Disposition header. It
   checks that the target is a readable, writable directory. It then saves the field: the
   overwrite check, a truncating create, and a fold that appends every chunk and counts the
   bytes.
6. The first failure stops the stream and produces an error page, always sent with HTTP 400.
   Full success produces a 303 redirect to the return path.

Modules, one per concern:

- `Errors` (errors.dfy): the error variants, `Option`, `Result` and `Outcome`.
- `Paths` (paths.dfy): paths as component sequences, following Rust's `std::path` on Unix.
  It covers parsing, `strip_prefix`, `join`, `starts_with`, and lexical resolution, which
  stands in for `canonicalize`.
- `FileStore` (file_store.dfy): the filesystem as a value: a working directory,
  directories with their read-only flag, and files with their bytes. It provides `exists`,
  `metadata`, `canonicalize`, and the failure conditions of `File::create`.
- `Multipart` (multipart.dfy): the item tree, filename extraction, and flattening.
- `Saving` (saving.dfy): `save_file` as the function `SaveSpec`, with its chunk fold `Pour`.
- `Handling` (handling.dfy): `handle_multipart` as `HandleItem` and `HandleItems`.
- `Upload` (upload.dfy): `upload_file` as `UploadSpec`, plus `create_error_response`.
- `FileUpload` (file_upload.dfy): the class `FileSystem`, which holds the mutable state.
  Its methods `SaveFile` (with the fold loop), `HandleMultipart`/`HandleStream` (the
  recursion over the item tree) and `UploadFile` change the filesystem step by step. Each
  is proved to end in exactly the state and result that the matching function above
  describes.

Three points of the code's behaviour are worth stating up front:

- The directory and permission checks run per field in `handle_multipart`, after the
  filename has been extracted, not when the target path is resolved. A body with no field
  therefore reaches the redirect even when the target is a regular file.
- A served directory that cannot be resolved renders code 500 on the page, but the response
  is sent with status 400, like every other failure.
- A failure of the body stream is `MultipartError`.

## Model

| member | source | states |
|---|---|---|
| `Paths.Components` | src/file_upload.rs:133-137 | The components of the `path` text are well formed: a root or `.` only in front, and every name non-empty, not `.` or `..`, with no `/`. The path is absolute exactly when the text starts with `/`. |
| `Paths.ComponentsDisplay` | src/file_upload.rs:133-137 | Parsing the text of any well-formed path gives back exactly that path. So the parse loses nothing but repeated `/`, inner `.` and a trailing `/`, which the component form does not have. |
| `Paths.NamesRoundTrip` | src/file_upload.rs:133-137 | The text of a non-empty run of `..` and names splits and parses back into the same components. |
| `Paths.StripRoot` | src/file_upload.rs:134-137 | A leading root component is removed and nothing else changes. A well-formed path has no root component left afterwards. |
| `Paths.Join` | src/file_upload.rs:176 | `PathBuf::join`: an absolute path replaces the base; a relative one is appended, so the result starts with the base. |
| `Paths.Walk` | src/file_upload.rs:176 | Lexical resolution, the stand-in for `canonicalize`: from an absolute directory the result is absolute, since `..` never climbs above the root. |
| `Paths.JoinWalk` | src/file_upload.rs:176 | Resolving a relative path joined onto a base is resolving the base, then the path from there. |
| `Paths.WalkCanonical` | src/file_upload.rs:176 | Canonicalizing from a canonical directory always yields a canonical path: absolute, names only. |
| `Paths.CanonicalIsFixed` | src/file_upload.rs:176-177 | Canonicalizing an already canonical path returns it unchanged, from any working directory. |
| `Paths.WalkKeepsPrefix` | src/file_upload.rs:175-177 | A path made only of names and `.` cannot leave the directory it is resolved under. |
| `Paths.WalkAppend` | src/file_upload.rs:176 | Resolving a joined path is the same as resolving its parts one after the other. |
| `FileStore.Canonicalize` | src/file_upload.rs:155-156 | Canonicalization succeeds exactly when the entry exists. Its value is the resolved path, which is canonical. |
| `FileStore.GetMetadata` | src/file_upload.rs:79 | Metadata is available exactly when the entry exists. It says "directory" exactly when the entry is a directory. A directory's read-only flag is the one the filesystem records; a regular file is never read-only. |
| `FileStore.CreateError` | src/file_upload.rs:30-38 | `File::create` succeeds exactly when the target is not a directory and is either an existing regular file, which it truncates, or a new name in an existing, writable directory. A directory target gives "is a directory"; a new name under a regular file gives "not a directory". |
| `Multipart.FileName` | src/file_upload.rs:62-75 | A filename is extracted exactly when Content-Disposition is present, parses and carries a filename. In every other case the result is `ParseError("HTTP header", "Failed to retrieve the name of the file to upload")`. |
| `Multipart.Flatten` | src/file_upload.rs:107-111 | Flattening leaves no nested container, only fields and stream failures. |
| `Multipart.FlattenAppend` | src/file_upload.rs:107-111 | Flattening keeps body order: it distributes over concatenation. |
| `Saving.Pour` | src/file_upload.rs:39-51 | The fold from 0 over the chunks: on success the count is exactly the number of bytes written; a failure is always `MultipartError` or the "Failed to write to file" error. |
| `Saving.PourAllBytes` | src/file_upload.rs:39-51 | The chunk fold succeeds exactly when every chunk is written. The file then holds the concatenation of the chunks, and the count, started from 0, is its length. |
| `Saving.PourStops` | src/file_upload.rs:39-51 | Once the fold has failed, the later chunks change neither the file nor the result. |
| `Saving.PourFailStep` | src/file_upload.rs:42-49 | Written chunks followed by a refused one: the file keeps the written chunks, and the refused chunk's error ends the fold. |
| `Saving.PourPartial` | src/file_upload.rs:39-51 | When chunk k is the first to fail, the file keeps exactly the chunks before k. The error is a write error or `MultipartError`, depending on which way chunk k failed. |
| `Saving.SaveSpec` | src/file_upload.rs:19-52 | `save_file` on a filesystem value. At most the destination's entry changes; on success the count equals the length of the destination's new contents. When writing is allowed but `File::create` fails, the result is `IOError("Failed to create <path>", <the OS error>)` and the filesystem is unchanged. |
| `Saving.NoOverwrite` | src/file_upload.rs:24-28 | Without the overwrite option, an existing destination gives the "already exists" error and the filesystem is unchanged: nothing is created or truncated. |
| `Saving.SaveSucceeds` | src/file_upload.rs:19-52 | `save_file` succeeds exactly when writing is allowed (overwrite set, or the destination is absent), create succeeds and every chunk is written. The destination then holds exactly the concatenated chunks, whatever it held before. The result is their byte count, and nothing else changes. |
| `Saving.OverwriteExisting` | src/file_upload.rs:24-51 | With the overwrite option, an existing regular file is replaced by exactly the chunks, and the byte count is returned, even when its directory is read-only. |
| `Saving.SavePartial` | src/file_upload.rs:30-51 | A write or stream failure at chunk k leaves the created file holding the chunks before k, with no rollback, and returns that chunk's error. |
| `Saving.SaveKeepsValid` | src/file_upload.rs:19-52 | `save_file` never changes directories, never removes a file, and keeps the filesystem well formed. |
| `Handling.DirCheck` | src/file_upload.rs:79-97 | The target passes exactly when its metadata is readable, it is a directory and it is not read-only. A non-directory gives `InvalidPathError`. Unreadable metadata or a read-only directory gives `InsufficientPermissionsError`. |
| `Handling.ParseErrorFirst` | src/file_upload.rs:60-104 | A field without a usable filename fails with `ParseError` before any directory check, and nothing is written. |
| `Handling.DirGate` | src/file_upload.rs:78-99 | A field is saved only into a readable, writable directory. Otherwise the error names the directory and the filesystem is unchanged. When the directory passes, the field's effect is exactly `save_file` on the filename joined onto the directory: its new filesystem, with its count as the one-element result or its error as the field's error. |
| `Handling.FilenameNotContained` | src/file_upload.rs:98 | The filename is joined unchecked: a field named `../x` lands next to the target directory, outside it. |
| `Handling.HandleItem` | src/file_upload.rs:55-113 | `handle_multipart` for one item on a filesystem value. It never changes the working directory or the directories, and every reported count is non-negative. |
| `Handling.HandleItems` | src/file_upload.rs:196-200 | A stream of items in order, stopping at the first failure. It never changes the working directory or the directories, and every reported count is non-negative. |
| `Handling.FirstFailure` | src/file_upload.rs:196-200 | A failed stream fails on some item k. The items before k all succeeded, and the stream's result and filesystem are exactly what item k did in the state they left, so the error reported is item k's. |
| `Handling.HandleAppend` | src/file_upload.rs:107-111 | Handling a concatenation of items means handling the first part, then the second part unless the first failed. |
| `Handling.FailureStopsRest` | src/file_upload.rs:196-200 | After a failure, later items are not processed and change nothing. |
| `Handling.FlattenItemPreserves` | src/file_upload.rs:107-111 | A nested container behaves exactly like its flattened leaves, handled under the same directory. |
| `Handling.FlattenPreserves` | src/file_upload.rs:107-111 | Handling the item tree is the same as handling its flattening in body order, all under one target directory. |
| `Handling.ItemGrows` | src/file_upload.rs:55-113 | Handling one item never changes directories, never removes a file, and keeps the filesystem well formed. |
| `Handling.ItemsGrow` | src/file_upload.rs:196-200 | Files written before a failure stay on disk. A stream only adds files. |
| `Handling.LeavesSucceed` | src/file_upload.rs:196-200 | A successful flat stream reports, for each leaf in order, the number of bytes that leaf carried. Every leaf is a named field. Afterwards the files are the earlier ones with each destination holding its field's chunks, a later field replacing an earlier one with the same destination. |
| `Handling.FieldSucceeds` | src/file_upload.rs:62-99 | A leaf that succeeds is a named field. Its destination then holds its chunks, it reports their length, and nothing else changes. |
| `Handling.AllSucceed` | src/file_upload.rs:195-200 | A successful upload of an item tree reports the byte count of each leaf field in body order. It leaves each leaf's destination holding that field's chunks and adds exactly the leaves' destinations. |
| `Upload.ReturnPath` | src/file_upload.rs:125-129 | The return path is the Referer header, byte for byte, when the header is present and valid text. Otherwise it is `/`. |
| `Upload.UploadPath` | src/file_upload.rs:133-137 | An upload path exists exactly when `path` is given, and it never has a root component. |
| `Upload.ResolveTarget` | src/file_upload.rs:175-193 | A target is accepted exactly when the join exists and its canonical form starts, component by component, with the root. An accepted target is that canonical form, which is canonical itself. |
| `Upload.CreateErrorResponse` | src/file_upload.rs:223-251 | The error page is always sent with 400. It shows the given code and description and links back to the return path. |
| `Upload.UploadSpec` | src/file_upload.rs:120-219 | `upload_file` on a filesystem value. The response is sent with 303 or 400, always points back to the return path, and the directories never change. |
| `Upload.MissingPath` | src/file_upload.rs:133-153 | A missing `path` gives a 400 page carrying "Missing query parameter 'path'". The served directory is never consulted and nothing is written. |
| `Upload.RootUnresolved` | src/file_upload.rs:155-173 | A served directory that does not resolve gives a page showing 500 but sent with 400, and nothing is written. |
| `Upload.Rejected` | src/file_upload.rs:176-193 | A target outside the root, or one that does not resolve, gives "Invalid value for 'path' parameter" with status 400, and nothing is written. |
| `Upload.Gate` | src/file_upload.rs:175-200 | An accepted target is canonical, exists and lies under the canonical root. The body is then handled as its flattened leaves, in order, under that target. |
| `Upload.ResponseOutcome` | src/file_upload.rs:195-251 | The response is a 303 redirect to the return path exactly when the target was accepted and every part succeeded. When a part fails, the page carries that failure's error (the first failing part's, by `FirstFailure`) with code 500 and is sent with 400. Every other error page is sent with 400 too. Directories never change and files are only added. |
| `Upload.DescentAccepted` | src/file_upload.rs:133-177 | A `path` without `..` that names an existing entry is always accepted. A leading `/` means the served root, not the filesystem root. |
| `Upload.ClimbOut` | src/file_upload.rs:176 | `/srv/www` joined with `../../etc` canonicalizes to `/etc`. |
| `Upload.EscapeRejected` | src/file_upload.rs:175-193 | With root `/srv/www`, the request `path=../../etc` is rejected as an invalid `path`, and nothing is written. |
| `Upload.ClimbRejected` | src/file_upload.rs:175-193 | Once the texts are read as components, root `/srv/www` with `path` components `..`, `..`, `etc` is rejected as an invalid `path`, and nothing is written. |
| `Upload.RedirectToReferer` | src/file_upload.rs:201-206 | A successful upload with `Referer: /foo` is answered with `SeeOther("/foo")`. |
| `FileUpload.FileSystem.SaveFile` | src/file_upload.rs:19-52 | Overwrite check, truncating create, then a loop that appends each chunk and adds its length to the count. The new filesystem and the result are exactly `SaveSpec`'s. |
| `FileUpload.FileSystem.HandleMultipart` | src/file_upload.rs:55-113 | Filename, directory checks, then `SaveFile`. A nested container is handled through `HandleStream`. The new state and result are `HandleItem`'s. |
| `FileUpload.FileSystem.HandleStream` | src/file_upload.rs:107-111 | Items are handled in order, counts collected, stopping at the first failure. The new state and result are `HandleItems`'s. |
| `FileUpload.FileSystem.UploadFile` | src/file_upload.rs:120-219 | The whole handler. The new filesystem and the response are `UploadSpec`'s. |

## Left out

- The actix-web request and response types, futures, streams and asynchronous scheduling.
  Handling is sequential, in body order, which is the order the streams impose.
- The Rust code stores the byte count in an `i64`. The model uses unbounded `int`, so
  overflow of the count is not modelled.
- Every filesystem lookup (`exists`, `metadata`, `canonicalize`, `File::create`) resolves its
  path lexically: `..` drops the previous name even when no such directory exists, and a
  trailing `/` is dropped. Take a writable target `/d` without `/d/nope`. Under this model a
  field named `nope/../f` or `f/` creates `/d/f` and succeeds. The operating system
  instead fails the create, with "not found" for `nope/../f` and "is a directory" for `f/`.
  That gives `IOError("Failed to create …")`.
- Symbolic links. `canonicalize` is modelled as lexical resolution (`..` climbs, `.` is
  dropped) from the working directory, followed by an existence check. Containment is stated
  only relative to that resolution.
- Windows path prefixes and `\` separators are not modelled. Paths follow Unix rules.
- Paths in error messages are shown in their normalized component form, not as the raw
  joined text. A field named `./a` or `a/` under `/d` gives "Failed to create /d/a". The
  code would show `/d/./a` or `/d/a/`.
- Content-Disposition parsing (`from_raw`, `get_filename`) is abstracted: a header value
  carries the disposition it parses to, or none.
- Operating-system failures:
  - `File::create` fails in four ways only: the target is a directory, or the target is a
    new name whose parent is a regular file, is missing, or is read-only. An existing
    regular file is always truncated, because files carry no permissions in this model.
    Other create failures (disk full, too many open files) are not modelled.
  - Write failures are given per chunk (`Unwritable`), not derived. A refused chunk writes
    none of its bytes, although `write_all` may in fact have written part of it.
- `fs::metadata` fails only for a missing entry. Entries whose metadata exists but cannot be
  read are not represented. Files carry no permissions of their own.
- The text of the error messages (the `Display` of `ContextualError`, in `errors.rs`) is not
  part of this model. Responses carry the error value itself.
- `errors::log_error_chain` (logging) and `renderer::render_error` (the HTML page) are not
  modelled. The sort, order, theme and random-route arguments are passed through to the
  renderer only, so they are left out too.
- `listing::extract_query_parameters` is not part of this model. The request carries the
  already extracted `path` parameter.
- Concurrent uploads to the same file are not modelled.

=== FILE: errors.dfy ===
/** Error values of the upload core and the wrappers that carry them. */
module Errors {

  datatype Option<+T> = None | Some(value: T)

  /** What the operating system reports when a filesystem call fails. */
  datatype OsError = NotFound | PermissionDenied | IsADirectory | NotADirectory | Other

  /** The variants of the server's ContextualError that the upload core raises. */
  datatype ContextualError =
    | CustomError(message: string)
    | IOError(context: string, cause: OsError)
    | MultipartError
    | ParseError(subject: string, reason: string)
    | InvalidPathError(message: string)
    | InsufficientPermissionsError(path: string)
    | InvalidHTTPRequestError(message: string)

  /** A value or the error that stopped its computation. */
  datatype Result<+T> = Ok(value: T) | Err(error: ContextualError)

  /** A check that passes or fails with an error. */
  datatype Outcome = Pass | Fail(error: ContextualError)
}

=== FILE: file_store.dfy ===
/**
 * The filesystem as the upload core sees it: a working directory, the directories with
 * their read-only flag, and the regular files with their bytes. Every lookup first resolves
 * its path lexically from the working directory (`..` drops the previous name whether or not
 * that name exists, and a trailing `/` is not kept), which is where the operating system
 * lands only when every directory the path passes through exists.
 */
module FileStore {
  import opened Errors
  import opened Paths

  newtype byte = b: int | 0 <= b < 256

  datatype Store = Store(cwd: Path, dirs: map<Path, bool>, files: map<Path, seq<byte>>)

  /** The new filesystem state and the value (or error) an operation produced. */
  datatype Effect<+T> = Effect(store: Store, result: Result<T>)

  /** What `fs::metadata` reports about an existing entry. */
  datatype Metadata = Metadata(isDir: bool, readonly: bool)

  /** A working directory that is canonical, entries that are canonical, no path both a file and a directory. */
  ghost predicate Valid(s: Store) {
    && Canonical(s.cwd)
    && s.dirs.Keys !! s.files.Keys
    && (forall p :: p in s.dirs ==> Canonical(p))
    && (forall p :: p in s.files ==> Canonical(p))
  }

  /** The entry `p` names, resolved lexically from the working directory. */
  function Resolve(s: Store, p: Path): (n: Path)
    ensures Canonical(s.cwd) ==> Canonical(n)
  {
    WalkCanonicalFrom(s.cwd, p);
    Walk(s.cwd, p)
  }

  /** Path::exists. */
  predicate Exists(s: Store, p: Path) {
    var n := Resolve(s, p);
    n in s.dirs || n in s.files
  }

  /** fs::metadata: None when the entry cannot be found. */
  function GetMetadata(s: Store, p: Path): (m: Option<Metadata>)
    ensures m.Some? <==> Exists(s, p)
    ensures m.Some? ==> (m.value.isDir <==> Resolve(s, p) in s.dirs)
    ensures m.Some? && m.value.isDir ==> m.value.readonly == s.dirs[Resolve(s, p)]
    ensures m.Some? && !m.value.isDir ==> !m.value.readonly
  {
    var n := Resolve(s, p);
    if n in s.dirs then Some(Metadata(true, s.dirs[n]))
    else if n in s.files then Some(Metadata(false, false))
    else None
  }

  /** Path::canonicalize: the resolved path, or None when nothing exists there. */
  function Canonicalize(s: Store, p: Path): (r: Option<Path>)
    ensures r.Some? <==> Exists(s, p)
    ensures r.Some? ==> r.value == Resolve(s, p)
    ensures r.Some? && Canonical(s.cwd) ==> Canonical(r.value)
  {
    if Exists(s, p) then Some(Resolve(s, p)) else None
  }

  /**
   * Why File::create of the resolved path `n` fails, if it does. `n` is a directory. Or `n`
   * does not exist yet and its parent is a regular file, is missing, or is read-only. An
   * existing regular file is truncated whatever its directory's flag, since that takes
   * write permission on the file itself, and files here carry no permissions.
   */
  function CreateError(s: Store, n: Path): (e: Option<OsError>)
    ensures e.None? <==>
      && n !in s.dirs
      && (n in s.files || (|n| >= 2 && n[..|n| - 1] in s.dirs && !s.dirs[n[..|n| - 1]]))
    ensures e == Some(IsADirectory) <==> n in s.dirs
    ensures e == Some(NotADirectory) <==>
      n !in s.dirs && n !in s.files && |n| >= 2 && n[..|n| - 1] !in s.dirs && n[..|n| - 1] in s.files
  {
    if n in s.dirs then Some(IsADirectory)
    else if n in s.files then None
    else if |n| < 2 then Some(NotFound)
    else if n[..|n| - 1] in s.dirs then (if s.dirs[n[..|n| - 1]] then Some(PermissionDenied) else None)
    else if n[..|n| - 1] in s.files then Some(NotADirectory)
    else Some(NotFound)
  }

  lemma WalkCanonicalFrom(cwd: Path, p: Path)
    ensures Canonical(cwd) ==> Canonical(Walk(cwd, p))
  {
    if Canonical(cwd) {
      WalkCanonical(cwd, p);
    }
  }
}

=== FILE: file_upload.dfy ===
/**
 * The upload handler over a mutable filesystem. Each method does what the corresponding
 * function of file_upload.rs does, step by step, and is proved to leave the filesystem and
 * return what the specification functions SaveSpec, HandleItem, HandleItems and UploadSpec
 * say; the properties of the upload are proved about those functions.
 */
module FileUpload {
  import opened Errors
  import opened Paths
  import opened FileStore
  import opened Multipart
  import opened Saving
  import opened Handling
  import opened Upload

  class FileSystem {
    const cwd: Path
    var dirs: map<Path, bool>
    var files: map<Path, seq<byte>>

    /** The filesystem as a value. */
    function State(): Store
      reads this
    {
      Store(cwd, dirs, files)
    }

    constructor (cwd: Path, dirs: map<Path, bool>, files: map<Path, seq<byte>>)
      ensures State() == Store(cwd, dirs, files)
    {
      this.cwd := cwd;
      this.dirs := dirs;
      this.files := files;
    }

    /**
     * save_file: refuse an existing destination unless overwriting is allowed, create the
     * file empty, then append the chunks one by one while counting the bytes.
     */
    method SaveFile(path: Path, overwrite: bool, body: seq<Chunk>) returns (r: Result<int>)
      modifies this
      ensures Effect(State(), r) == SaveSpec(old(State()), path, overwrite, body)
    {
      if !overwrite && Exists(State(), path) {
        return Err(CustomError(ALREADY_EXISTS));
      }
      var n := Resolve(State(), path);
      var failure := CreateError(State(), n);
      if failure.Some? {
        return Err(IOError("Failed to create " + Display(path), failure.value));
      }
      files := files[n := []];
      var count := 0;
      var i := 0;
      while i < |body|
        invariant 0 <= i <= |body|
        invariant n in files && Pour(body[..i]) == Poured(files[n], Ok(count))
        invariant dirs == old(dirs) && files == old(files)[n := files[n]]
      {
        assert body[..i + 1][..i] == body[..i];
        match body[i] {
          case Bytes(data) =>
            files := files[n := files[n] + data];
            count := count + |data|;
          case Unwritable(_) =>
            assert Pour(body[..i + 1]) == Poured(files[n], Err(IOError(WRITE_FAILED, Other)));
            PourStops(body, i + 1);
            return Err(IOError(WRITE_FAILED, Other));
          case Interrupted =>
            assert Pour(body[..i + 1]) == Poured(files[n], Err(MultipartError));
            PourStops(body, i + 1);
            return Err(MultipartError);
        }
        i := i + 1;
      }
      assert body[..i] == body;
      r := Ok(count);
    }

    /**
     * handle_multipart for one item: a field's filename, the checks of the target directory,
     * then save_file; a nested container is handled as a stream of its own under `dir`.
     */
    method HandleMultipart(item: Item, dir: Path, overwrite: bool) returns (r: Result<seq<int>>)
      modifies this
      ensures Effect(State(), r) == HandleItem(old(State()), item, dir, overwrite)
      decreases item, 1
    {
      match item {
        case Field(headers, body) =>
          var name := FileName(headers);
          if name.Err? {
            return Err(name.error);
          }
          var check := DirCheck(GetMetadata(State(), dir), dir);
          if check.Fail? {
            return Err(check.error);
          }
          var saved := SaveFile(Join(dir, Components(name.value)), overwrite, body);
          r := if saved.Ok? then Ok([saved.value]) else Err(saved.error);
        case Nested(items) =>
          r := HandleStream(items, dir, overwrite);
        case Malformed =>
          r := Err(MultipartError);
      }
    }

    /** A stream of items, in order, collecting the byte counts and stopping at the first failure. */
    method HandleStream(items: seq<Item>, dir: Path, overwrite: bool) returns (r: Result<seq<int>>)
      modifies this
      ensures Effect(State(), r) == HandleItems(old(State()), items, dir, overwrite)
      decreases items, 0
    {
      var counts := [];
      var i := 0;
      while i < |items|
        invariant 0 <= i <= |items|
        invariant Effect(State(), Ok(counts)) == HandleItems(old(State()), items[..i], dir, overwrite)
      {
        ghost var before := State();
        var one := HandleMultipart(items[i], dir, overwrite);
        assert items[..i + 1] == items[..i] + [items[i]];
        HandleAppend(old(State()), items[..i], [items[i]], dir, overwrite);
        assert [items[i]][1..] == [];
        if one.Err? {
          FailureStopsRest(old(State()), items[..i + 1], items[i + 1..], dir, overwrite);
          assert items[..i + 1] + items[i + 1..] == items;
          return Err(one.error);
        }
        assert HandleItems(before, [items[i]], dir, overwrite) == Effect(State(), Ok(one.value + []));
        assert one.value + [] == one.value;
        counts := counts + one.value;
        i := i + 1;
      }
      assert items[..i] == items;
      r := Ok(counts);
    }

    /**
     * upload_file: work out the return path, reject a missing `path` parameter, resolve the
     * served root, gate the target directory, then handle the body and answer with a redirect
     * or an error page.
     */
    method UploadFile(req: Request, cfg: Config) returns (resp: Response)
      modifies this
      ensures Reply(State(), resp) == UploadSpec(old(State()), req, cfg)
    {
      var returnPath := ReturnPath(req.referer);
      var upload := UploadPath(req.path);
      if upload.None? {
        return CreateErrorResponse(InvalidHTTPRequestError(MISSING_PATH), BAD_REQUEST, returnPath);
      }
      var root := Canonicalize(State(), Components(cfg.root));
      if root.None? {
        return CreateErrorResponse(IOError(ROOT_UNRESOLVED, NotFound), INTERNAL_SERVER_ERROR, returnPath);
      }
      var target := ResolveTarget(State(), root.value, upload.value);
      if target.None? {
        return CreateErrorResponse(InvalidHTTPRequestError(INVALID_PATH), BAD_REQUEST, returnPath);
      }
      var outcome := HandleStream(req.body, target.value, cfg.overwriteFiles);
      resp := if outcome.Ok? then SeeOther(returnPath)
              else CreateErrorResponse(outcome.error, INTERNAL_SERVER_ERROR, returnPath);
    }
  }
}

=== FILE: handling.dfy ===
/**
 * `handle_multipart`: each field's filename is extracted, the target directory is checked,
 * and the field is saved under it; nested containers are handled item by item under the
 * same directory. Items are processed in body order and the first failure ends the stream.
 */
module Handling {
  import opened Errors
  import opened Paths
  import opened FileStore
  import opened Multipart
  import opened Saving

  /**
   * The check of the target directory's metadata: it must be readable, be a directory and
   * not be read-only.
   */
  function DirCheck(meta: Option<Metadata>, dir: Path): (o: Outcome)
    ensures o.Pass? <==> meta == Some(Metadata(true, false))
    ensures meta.Some? && !meta.value.isDir ==>
      o == Fail(InvalidPathError("cannot upload file to " + Display(dir) + ", since it's not a directory"))
    ensures meta.None? || (meta.value.isDir && meta.value.readonly) ==>
      o == Fail(InsufficientPermissionsError(Display(dir)))
  {
    match meta
    case None => Fail(InsufficientPermissionsError(Display(dir)))
    case Some(m) =>
      if !m.isDir then Fail(InvalidPathError("cannot upload file to " + Display(dir) + ", since it's not a directory"))
      else if m.readonly then Fail(InsufficientPermissionsError(Display(dir)))
      else Pass
  }

  /** The file a field named `name` is written to: the name joined, unchecked, onto `dir`. */
  function Destination(cwd: Path, dir: Path, name: string): Path {
    Walk(cwd, Join(dir, Components(name)))
  }

  /** One multipart item, uploaded into `dir`: the byte counts of the files it saved. */
  function HandleItem(s: Store, item: Item, dir: Path, overwrite: bool): (e: Effect<seq<int>>)
    ensures e.store.cwd == s.cwd && e.store.dirs == s.dirs
    ensures e.result.Ok? ==> forall i :: 0 <= i < |e.result.value| ==> e.result.value[i] >= 0
    decreases item
  {
    match item
    case Field(headers, body) =>
      (match FileName(headers)
       case Err(e) => Effect(s, Err(e))
       case Ok(name) =>
         (match DirCheck(GetMetadata(s, dir), dir)
          case Fail(e) => Effect(s, Err(e))
          case Pass =>
            var saved := SaveSpec(s, Join(dir, Components(name)), overwrite, body);
            Effect(saved.store, if saved.result.Ok? then Ok([saved.result.value]) else Err(saved.result.error))))
    case Nested(items) => HandleItems(s, items, dir, overwrite)
    case Malformed => Effect(s, Err(MultipartError))
  }

  /** A stream of items, in order, stopping at the first failure. */
  function HandleItems(s: Store, items: seq<Item>, dir: Path, overwrite: bool): (e: Effect<seq<int>>)
    ensures e.store.cwd == s.cwd && e.store.dirs == s.dirs
    ensures e.result.Ok? ==> forall i :: 0 <= i < |e.result.value| ==> e.result.value[i] >= 0
    decreases items
  {
    if items == [] then Effect(s, Ok([]))
    else
      var first := HandleItem(s, items[0], dir, overwrite);
      if first.result.Err? then first
      else
        var rest := HandleItems(first.store, items[1..], dir, overwrite);
        Effect(rest.store, if rest.result.Ok? then Ok(first.result.value + rest.result.value) else rest.result)
  }

  /** What happens when `items` follows an earlier stage that ended in `e`. */
  function Continue(e: Effect<seq<int>>, items: seq<Item>, dir: Path, overwrite: bool): Effect<seq<int>> {
    if e.result.Err? then e
    else
      var rest := HandleItems(e.store, items, dir, overwrite);
      Effect(rest.store, if rest.result.Ok? then Ok(e.result.value + rest.result.value) else rest.result)
  }

  /** Handling a concatenation is handling the first part, then the second unless the first failed. */
  lemma {:induction false} HandleAppend(s: Store, a: seq<Item>, b: seq<Item>, dir: Path, overwrite: bool)
    ensures HandleItems(s, a + b, dir, overwrite) == Continue(HandleItems(s, a, dir, overwrite), b, dir, overwrite)
    decreases |a|
  {
    if a == [] {
      assert a + b == b;
      var r := HandleItems(s, b, dir, overwrite);
      if r.result.Ok? {
        assert [] + r.result.value == r.result.value;
      }
    } else {
      assert (a + b)[0] == a[0];
      assert (a + b)[1..] == a[1..] + b;
      var first := HandleItem(s, a[0], dir, overwrite);
      if first.result.Ok? {
        HandleAppend(first.store, a[1..], b, dir, overwrite);
        var mid := HandleItems(first.store, a[1..], dir, overwrite);
        if mid.result.Ok? {
          var last := HandleItems(mid.store, b, dir, overwrite);
          if last.result.Ok? {
            assert first.result.value + (mid.result.value + last.result.value)
                == (first.result.value + mid.result.value) + last.result.value;
          }
        }
      }
    }
  }

  /**
   * A failed stream fails on some item k: the items before it all succeeded, and the stream
   * ends with exactly what item k did in the state they left behind, its error included.
   */
  lemma {:induction false} FirstFailure(s: Store, items: seq<Item>, dir: Path, overwrite: bool)
    requires HandleItems(s, items, dir, overwrite).result.Err?
    ensures exists k ::
      && 0 <= k < |items|
      && HandleItems(s, items[..k], dir, overwrite).result.Ok?
      && HandleItems(s, items, dir, overwrite)
         == HandleItem(HandleItems(s, items[..k], dir, overwrite).store, items[k], dir, overwrite)
    decreases |items|
  {
    var first := HandleItem(s, items[0], dir, overwrite);
    if first.result.Err? {
      assert items[..0] == [];
    } else {
      var tail := items[1..];
      FirstFailure(first.store, tail, dir, overwrite);
      var j :| 0 <= j < |tail| && HandleItems(first.store, tail[..j], dir, overwrite).result.Ok?
        && HandleItems(first.store, tail, dir, overwrite)
           == HandleItem(HandleItems(first.store, tail[..j], dir, overwrite).store, tail[j], dir, overwrite);
      var k := j + 1;
      assert items[..k][0] == items[0] && items[..k][1..] == tail[..j];
      assert items[k] == tail[j];
      assert HandleItems(s, items[..k], dir, overwrite).store == HandleItems(first.store, tail[..j], dir, overwrite).store;
    }
  }

  /** Once a stage has failed, later items are not processed: files they would write never appear. */
  lemma FailureStopsRest(s: Store, a: seq<Item>, b: seq<Item>, dir: Path, overwrite: bool)
    requires HandleItems(s, a, dir, overwrite).result.Err?
    ensures HandleItems(s, a + b, dir, overwrite) == HandleItems(s, a, dir, overwrite)
  {
    HandleAppend(s, a, b, dir, overwrite);
  }

  /** A nested container behaves as its leaves spliced into the outer stream, all under `dir`. */
  lemma {:induction false} FlattenItemPreserves(s: Store, item: Item, dir: Path, overwrite: bool)
    ensures HandleItem(s, item, dir, overwrite) == HandleItems(s, FlattenItem(item), dir, overwrite)
    decreases item
  {
    match item
    case Nested(items) =>
      FlattenPreserves(s, items, dir, overwrite);
    case Field(_, _) =>
      assert [item][1..] == [];
      var e := HandleItem(s, item, dir, overwrite);
      if e.result.Ok? {
        assert e.result.value + [] == e.result.value;
      }
    case Malformed =>
  }

  /** Handling the item tree is handling its flattening, in body order, under one directory. */
  lemma {:induction false} FlattenPreserves(s: Store, items: seq<Item>, dir: Path, overwrite: bool)
    ensures HandleItems(s, items, dir, overwrite) == HandleItems(s, Flatten(items), dir, overwrite)
    decreases items
  {
    if items != [] {
      var first := HandleItem(s, items[0], dir, overwrite);
      FlattenItemPreserves(s, items[0], dir, overwrite);
      HandleAppend(s, FlattenItem(items[0]), Flatten(items[1..]), dir, overwrite);
      if first.result.Ok? {
        FlattenPreserves(first.store, items[1..], dir, overwrite);
      }
    }
  }

  /** A field without a usable filename fails with ParseError before any directory check, writing nothing. */
  lemma ParseErrorFirst(s: Store, headers: map<string, HeaderValue>, body: seq<Chunk>, dir: Path, overwrite: bool)
    requires FileName(headers).Err?
    ensures HandleItem(s, Field(headers, body), dir, overwrite) == Effect(s, Err(PARSE_ERROR))
  {
  }

  /**
   * A field is saved only into a readable, writable directory: otherwise the error names the
   * directory and the store is unchanged; when it is saved, the effect is that of save_file
   * on the filename joined onto the directory.
   */
  lemma DirGate(s: Store, headers: map<string, HeaderValue>, body: seq<Chunk>, dir: Path, overwrite: bool)
    requires FileName(headers).Ok?
    ensures var e := HandleItem(s, Field(headers, body), dir, overwrite);
      && (GetMetadata(s, dir).Some? && !GetMetadata(s, dir).value.isDir ==>
          e == Effect(s, Err(InvalidPathError("cannot upload file to " + Display(dir) + ", since it's not a directory"))))
      && (GetMetadata(s, dir).None? || GetMetadata(s, dir) == Some(Metadata(true, true)) ==>
          e == Effect(s, Err(InsufficientPermissionsError(Display(dir)))))
      && (GetMetadata(s, dir) == Some(Metadata(true, false)) ==>
          var saved := SaveSpec(s, Join(dir, Components(FileName(headers).value)), overwrite, body);
          e == Effect(saved.store, if saved.result.Ok? then Ok([saved.result.value]) else Err(saved.result.error)))
  {
  }

  /** Directories and the working directory never change, files are only added, and validity is kept. */
  ghost predicate Grows(s: Store, t: Store) {
    && t.cwd == s.cwd
    && t.dirs == s.dirs
    && s.files.Keys <= t.files.Keys
    && (Valid(s) ==> Valid(t))
  }

  /** Files already written stay on disk, whatever happens later in the stream. */
  lemma {:induction false} ItemGrows(s: Store, item: Item, dir: Path, overwrite: bool)
    ensures Grows(s, HandleItem(s, item, dir, overwrite).store)
    decreases item
  {
    match item
    case Field(headers, body) =>
      if FileName(headers).Ok? {
        SaveKeepsValid(s, Join(dir, Components(FileName(headers).value)), overwrite, body);
      }
    case Nested(items) =>
      ItemsGrow(s, items, dir, overwrite);
    case Malformed =>
  }

  lemma {:induction false} ItemsGrow(s: Store, items: seq<Item>, dir: Path, overwrite: bool)
    ensures Grows(s, HandleItems(s, items, dir, overwrite).store)
    decreases items
  {
    if items != [] {
      var first := HandleItem(s, items[0], dir, overwrite);
      ItemGrows(s, items[0], dir, overwrite);
      if first.result.Ok? {
        ItemsGrow(first.store, items[1..], dir, overwrite);
      }
    }
  }

  /** The files the leaves of a successful stream name, resolved from `cwd`. */
  function Destinations(cwd: Path, leaves: seq<Item>, dir: Path): set<Path> {
    if leaves == [] then {}
    else
      var here := if leaves[0].Field? && FileName(leaves[0].headers).Ok?
        then {Destination(cwd, dir, FileName(leaves[0].headers).value)} else {};
      here + Destinations(cwd, leaves[1..], dir)
  }

  /** The byte count each leaf reports when it is saved: the length of its chunks. */
  function Sizes(leaves: seq<Item>): (sizes: seq<int>)
    ensures |sizes| == |leaves|
  {
    if leaves == [] then []
    else [if leaves[0].Field? then |Concat(leaves[0].body)| else 0] + Sizes(leaves[1..])
  }

  /**
   * The files after every leaf has been written over `files`: each named field's destination
   * holds its chunks, a later field replacing an earlier one with the same destination.
   */
  function Written(cwd: Path, leaves: seq<Item>, dir: Path, files: map<Path, seq<byte>>): map<Path, seq<byte>>
    decreases |leaves|
  {
    if leaves == [] then files
    else
      var next := if leaves[0].Field? && FileName(leaves[0].headers).Ok?
        then files[Destination(cwd, dir, FileName(leaves[0].headers).value) := Concat(leaves[0].body)]
        else files;
      Written(cwd, leaves[1..], dir, next)
  }

  /**
   * A flat stream that succeeds reports, for each leaf, the number of bytes it carried; every
   * leaf is a named field; and the files on disk afterwards are those before with each
   * destination holding its field's chunks.
   */
  lemma {:induction false} LeavesSucceed(s: Store, leaves: seq<Item>, dir: Path, overwrite: bool)
    requires forall i :: 0 <= i < |leaves| ==> !leaves[i].Nested?
    requires HandleItems(s, leaves, dir, overwrite).result.Ok?
    ensures |HandleItems(s, leaves, dir, overwrite).result.value| == |leaves|
    ensures forall i :: 0 <= i < |leaves| ==> leaves[i].Field? && FileName(leaves[i].headers).Ok?
    ensures HandleItems(s, leaves, dir, overwrite).store.files.Keys == s.files.Keys + Destinations(s.cwd, leaves, dir)
    ensures HandleItems(s, leaves, dir, overwrite).result.value == Sizes(leaves)
    ensures HandleItems(s, leaves, dir, overwrite).store.files == Written(s.cwd, leaves, dir, s.files)
    decreases |leaves|
  {
    if leaves != [] {
      var first := HandleItem(s, leaves[0], dir, overwrite);
      FieldSucceeds(s, leaves[0], dir, overwrite);
      var name := FileName(leaves[0].headers).value;
      var here := Destination(s.cwd, dir, name);
      var rest := HandleItems(first.store, leaves[1..], dir, overwrite);
      assert HandleItems(s, leaves, dir, overwrite)
        == Effect(rest.store, Ok(first.result.value + rest.result.value));
      LeavesSucceed(first.store, leaves[1..], dir, overwrite);
      assert first.store.files.Keys == s.files.Keys + {here};
      assert Destinations(s.cwd, leaves, dir) == {here} + Destinations(s.cwd, leaves[1..], dir);
      assert Written(s.cwd, leaves, dir, s.files) == Written(s.cwd, leaves[1..], dir, first.store.files);
      assert Sizes(leaves) == first.result.value + Sizes(leaves[1..]);
      forall i | 0 <= i < |leaves|
        ensures leaves[i].Field? && FileName(leaves[i].headers).Ok?
      {
        if i > 0 {
          assert leaves[i] == leaves[1..][i - 1];
        }
      }
    }
  }

  /**
   * One leaf that is handled successfully is a named field; its destination then holds its
   * chunks and it reports their length.
   */
  lemma FieldSucceeds(s: Store, item: Item, dir: Path, overwrite: bool)
    requires !item.Nested? && HandleItem(s, item, dir, overwrite).result.Ok?
    ensures item.Field? && FileName(item.headers).Ok?
    ensures HandleItem(s, item, dir, overwrite) == Effect(
      s.(files := s.files[Destination(s.cwd, dir, FileName(item.headers).value) := Concat(item.body)]),
      Ok([|Concat(item.body)|]))
  {
    var name := FileName(item.headers).value;
    SaveSucceeds(s, Join(dir, Components(name)), overwrite, item.body);
  }

  /**
   * A successful upload of an item tree reports the byte count of each leaf field, in body
   * order, and leaves each leaf's destination holding that field's chunks.
   */
  lemma AllSucceed(s: Store, items: seq<Item>, dir: Path, overwrite: bool)
    requires HandleItems(s, items, dir, overwrite).result.Ok?
    ensures |HandleItems(s, items, dir, overwrite).result.value| == |Flatten(items)|
    ensures HandleItems(s, items, dir, overwrite).store.files.Keys
      == s.files.Keys + Destinations(s.cwd, Flatten(items), dir)
    ensures HandleItems(s, items, dir, overwrite).result.value == Sizes(Flatten(items))
    ensures HandleItems(s, items, dir, overwrite).store.files == Written(s.cwd, Flatten(items), dir, s.files)
  {
    FlattenPreserves(s, items, dir, overwrite);
    LeavesSucceed(s, Flatten(items), dir, overwrite);
  }

  /**
   * Only the target directory is checked, not the filename joined onto it: a field named
   * `../x` is written next to the target directory, outside it (unless that directory is
   * itself named x).
   */
  lemma FilenameNotContained(cwd: Path, dir: Path)
    requires Canonical(dir) && |dir| >= 2 && dir[|dir| - 1] != Normal("x")
    ensures Destination(cwd, dir, "../x") == dir[..|dir| - 1] + [Normal("x")]
    ensures !StartsWith(Destination(cwd, dir, "../x"), dir)
  {
    SplitAt("..", "x");
    SplitPlain("x");
    assert "../x" == ".." + "/" + "x";
    assert Components("../x") == [ParentDir, Normal("x")] by {
      assert Segments(["x"]) == [Normal("x")];
    }
    var up := [ParentDir, Normal("x")];
    assert Join(dir, up) == dir + up;
    WalkAppend(cwd, dir, up);
    CanonicalIsFixed(cwd, dir);
    assert Walk(dir, up) == Walk(Step(dir, ParentDir), [Normal("x")]);
    var d := dir[..|dir| - 1] + [Normal("x")];
    assert d[|dir| - 1] != dir[|dir| - 1];
  }
}

=== FILE: multipart.dfy ===
/**
 * The multipart body as a tree of items, the way the server receives it: a field with its
 * headers and its stream of chunks, a nested multipart container, or a point where the
 * body stream itself fails.
 */
module Multipart {
  import opened Errors
  import opened FileStore

  /**
   * One step of a field's stream, together with what the disk does with it: `Bytes` is read
   * and written in full, `Unwritable` is read but `write_all` fails, `Interrupted` is a
   * failure of the body stream.
   */
  datatype Chunk = Bytes(data: seq<byte>) | Unwritable(data: seq<byte>) | Interrupted

  /** A parsed Content-Disposition header. */
  datatype Disposition = Disposition(filename: Option<string>)

  /** A raw header value, with what ContentDisposition::from_raw makes of it (None: it does not parse). */
  datatype HeaderValue = HeaderValue(disposition: Option<Disposition>)

  datatype Item =
    | Field(headers: map<string, HeaderValue>, body: seq<Chunk>)
    | Nested(items: seq<Item>)
    | Malformed

  const CONTENT_DISPOSITION := "content-disposition"

  const PARSE_ERROR := ParseError("HTTP header", "Failed to retrieve the name of the file to upload")

  /**
   * The filename a field declares: the Content-Disposition header must be present, must
   * parse, and must carry a filename; any missing step is a ParseError.
   */
  function FileName(headers: map<string, HeaderValue>): (r: Result<string>)
    ensures r.Ok? <==>
      && CONTENT_DISPOSITION in headers
      && headers[CONTENT_DISPOSITION].disposition.Some?
      && headers[CONTENT_DISPOSITION].disposition.value.filename.Some?
    ensures r.Ok? ==> r.value == headers[CONTENT_DISPOSITION].disposition.value.filename.value
    ensures r.Err? ==> r.error == PARSE_ERROR
  {
    if CONTENT_DISPOSITION !in headers then Err(PARSE_ERROR)
    else match headers[CONTENT_DISPOSITION].disposition
      case None => Err(PARSE_ERROR)
      case Some(d) =>
        match d.filename
        case None => Err(PARSE_ERROR)
        case Some(f) => Ok(f)
  }

  /** The fields and stream failures of `items`, nested containers spliced in body order. */
  function Flatten(items: seq<Item>): (leaves: seq<Item>)
    ensures forall i :: 0 <= i < |leaves| ==> !leaves[i].Nested?
    decreases items
  {
    if items == [] then [] else FlattenItem(items[0]) + Flatten(items[1..])
  }

  function FlattenItem(item: Item): (leaves: seq<Item>)
    ensures forall i :: 0 <= i < |leaves| ==> !leaves[i].Nested?
    decreases item
  {
    match item
    case Nested(items) => Flatten(items)
    case _ => [item]
  }

  /** Flattening distributes over concatenation. */
  lemma {:induction false} FlattenAppend(a: seq<Item>, b: seq<Item>)
    ensures Flatten(a + b) == Flatten(a) + Flatten(b)
    decreases |a|
  {
    if a == [] {
      assert a + b == b;
    } else {
      assert (a + b)[0] == a[0];
      assert (a + b)[1..] == a[1..] + b;
      FlattenAppend(a[1..], b);
    }
  }
}

=== FILE: paths.dfy ===
/**
 * Filesystem paths as sequences of components, the way Rust's std::path sees them on
 * Unix: parsing a string into components, stripping the root, joining, the
 * component-wise `starts_with`, and the lexical resolution that stands in for
 * `canonicalize` (symbolic links are not modelled).
 */
module Paths {

  /** One component of a path (std::path::Component without the Windows prefix). */
  datatype Component = RootDir | CurDir | ParentDir | Normal(name: string)

  type Path = seq<Component>

  /** A name that can stand as a Normal component: not empty, not `.` or `..`, no `/`. */
  predicate ValidName(n: string) {
    n != "" && n != "." && n != ".." && '/' !in n
  }

  /** A component that may follow the first one: `..` or a plain name. */
  predicate Inner(c: Component) {
    c == ParentDir || (c.Normal? && ValidName(c.name))
  }

  /** What `components()` can yield: a root or `.` only in front, and nothing else odd. */
  predicate WellFormed(p: Path) {
    forall i :: 0 <= i < |p| ==> Inner(p[i]) || (i == 0 && (p[i] == RootDir || p[i] == CurDir))
  }

  predicate IsAbsolute(p: Path) {
    |p| > 0 && p[0] == RootDir
  }

  /** An absolute path made of names only: what canonicalization produces. */
  predicate Canonical(p: Path) {
    IsAbsolute(p) && forall i :: 0 < i < |p| ==> p[i].Normal?
  }

  /** Component-wise prefix, as Path::starts_with. */
  predicate StartsWith(p: Path, base: Path) {
    |base| <= |p| && p[..|base|] == base
  }

  /** The pieces of `s` between slashes. */
  function Split(s: string): (parts: seq<string>)
    ensures |parts| >= 1
    ensures forall i :: 0 <= i < |parts| ==> '/' !in parts[i]
  {
    if s == [] then [""]
    else
      var rest := Split(s[1..]);
      if s[0] == '/' then [""] + rest
      else
        assert '/' !in rest[0];
        [[s[0]] + rest[0]] + rest[1..]
  }

  /** The component one piece between slashes yields: none for empty pieces and `.`. */
  function Segment(part: string): Path {
    if part == "" || part == "." then []
    else if part == ".." then [ParentDir]
    else [Normal(part)]
  }

  function Segments(parts: seq<string>): (p: Path)
    requires forall i :: 0 <= i < |parts| ==> '/' !in parts[i]
    ensures forall i :: 0 <= i < |p| ==> Inner(p[i])
  {
    if parts == [] then [] else Segment(parts[0]) + Segments(parts[1..])
  }

  /** The components of the path written `s` (Path::components on Unix). */
  function Components(s: string): (p: Path)
    ensures WellFormed(p)
    ensures IsAbsolute(p) <==> |s| > 0 && s[0] == '/'
  {
    if |s| > 0 && s[0] == '/' then [RootDir] + Segments(Split(s[1..]))
    else
      var parts := Split(s);
      if parts[0] == "." then [CurDir] + Segments(parts[1..]) else Segments(parts)
  }

  /** The path with a leading root component removed (`strip_prefix(Component::RootDir)`). */
  function StripRoot(p: Path): (q: Path)
    ensures WellFormed(p) ==> forall i :: 0 <= i < |q| ==> q[i] != RootDir
    ensures IsAbsolute(p) ==> p == [RootDir] + q
    ensures !IsAbsolute(p) ==> q == p
  {
    if IsAbsolute(p) then p[1..] else p
  }

  /** PathBuf::join: an absolute `p` replaces `base`, otherwise `p` is appended. */
  function Join(base: Path, p: Path): (r: Path)
    ensures IsAbsolute(p) ==> r == p
    ensures !IsAbsolute(p) ==> StartsWith(r, base)
  {
    if IsAbsolute(p) then p
    else if |base| > 0 && |p| > 0 && p[0] == CurDir then base + p[1..]
    else base + p
  }

  /** One component of lexical resolution: a root restarts, `..` climbs, `.` is dropped. */
  function Step(acc: Path, c: Component): Path {
    match c
    case RootDir => [RootDir]
    case CurDir => acc
    case ParentDir =>
      if |acc| > 0 && acc[|acc| - 1].Normal? then acc[..|acc| - 1]
      else if acc == [RootDir] then acc
      else acc + [ParentDir]
    case Normal(_) => acc + [c]
  }

  /**
   * The path reached by following `rest` from the directory `acc`, read lexically: `..`
   * drops the previous name whether or not it exists. With `acc` the working directory, this
   * is where the operating system lands when every directory on the way exists and no
   * symbolic link is involved.
   */
  function Walk(acc: Path, rest: Path): (r: Path)
    ensures IsAbsolute(acc) ==> IsAbsolute(r)
    decreases |rest|
  {
    if rest == [] then acc else Walk(Step(acc, rest[0]), rest[1..])
  }

  /** The text of a path, for error messages (Path::display). */
  function Display(p: Path): string {
    if p == [] then ""
    else if p[0] == RootDir then "/" + Names(p[1..])
    else Names(p)
  }

  function Names(p: Path): string {
    if p == [] then ""
    else
      var first := match p[0]
        case RootDir => "/"
        case CurDir => "."
        case ParentDir => ".."
        case Normal(n) => n;
      if |p| == 1 then first else first + "/" + Names(p[1..])
  }

  /** A piece without a slash splits into itself. */
  lemma {:induction false} SplitPlain(s: string)
    requires '/' !in s
    ensures Split(s) == [s]
    decreases |s|
  {
    if s != [] {
      assert '/' !in s[1..];
      SplitPlain(s[1..]);
      assert [s[0]] + s[1..] == s;
    }
  }

  /** A slash after a piece without one ends that piece. */
  lemma {:induction false} SplitAt(a: string, b: string)
    requires '/' !in a
    ensures Split(a + "/" + b) == [a] + Split(b)
    decreases |a|
  {
    var s := a + "/" + b;
    if a == [] {
      assert s[1..] == b;
    } else {
      assert s[0] == a[0];
      assert s[1..] == a[1..] + "/" + b;
      assert '/' !in a[1..];
      SplitAt(a[1..], b);
      assert [a[0]] + a[1..] == a;
    }
  }

  /** Resolution from a canonical directory always ends in a canonical path. */
  lemma {:induction false} WalkCanonical(acc: Path, rest: Path)
    requires Canonical(acc)
    ensures Canonical(Walk(acc, rest))
    decreases |rest|
  {
    if rest != [] {
      var next := Step(acc, rest[0]);
      assert Canonical(next);
      WalkCanonical(next, rest[1..]);
    }
  }

  /** Names alone are appended as they stand. */
  lemma {:induction false} WalkAppends(acc: Path, rest: Path)
    requires forall i :: 0 <= i < |rest| ==> rest[i].Normal?
    ensures Walk(acc, rest) == acc + rest
    decreases |rest|
  {
    if rest != [] {
      WalkAppends(acc + [rest[0]], rest[1..]);
      assert acc + [rest[0]] + rest[1..] == acc + rest;
    }
  }

  /** Resolving a canonical path gives it back, from whatever directory: resolution is idempotent. */
  lemma CanonicalIsFixed(cwd: Path, p: Path)
    requires Canonical(p)
    ensures Walk(cwd, p) == p
  {
    WalkAppends([RootDir], p[1..]);
    assert [RootDir] + p[1..] == p;
  }

  /** A path that never climbs (`..`) nor restarts (root) cannot leave the prefix it starts under. */
  lemma {:induction false} WalkKeepsPrefix(base: Path, acc: Path, rest: Path)
    requires StartsWith(acc, base)
    requires forall i :: 0 <= i < |rest| ==> rest[i].Normal? || rest[i] == CurDir
    ensures StartsWith(Walk(acc, rest), base)
    decreases |rest|
  {
    if rest != [] {
      var next := Step(acc, rest[0]);
      assert StartsWith(next, base) by {
        if rest[0].Normal? {
          assert next[..|base|] == acc[..|base|];
        }
      }
      WalkKeepsPrefix(base, next, rest[1..]);
    }
  }

  /** Walking a concatenation is walking its parts in turn. */
  lemma {:induction false} WalkAppend(acc: Path, a: Path, b: Path)
    ensures Walk(acc, a + b) == Walk(Walk(acc, a), b)
    decreases |a|
  {
    if a == [] {
      assert a + b == b;
    } else {
      assert (a + b)[0] == a[0];
      assert (a + b)[1..] == a[1..] + b;
      WalkAppend(Step(acc, a[0]), a[1..], b);
    }
  }

  /** Resolving a relative path joined onto `base` is resolving `base`, then the path from there. */
  lemma JoinWalk(cwd: Path, base: Path, p: Path)
    requires !IsAbsolute(p)
    ensures Walk(cwd, Join(base, p)) == Walk(Walk(cwd, base), p)
  {
    if |base| > 0 && |p| > 0 && p[0] == CurDir {
      WalkAppend(cwd, base, p[1..]);
    } else {
      WalkAppend(cwd, base, p);
    }
  }

  /** The text of a path made of `..` and names reads back as the same components. */
  lemma {:induction false} NamesRoundTrip(q: Path)
    requires |q| > 0 && forall i :: 0 <= i < |q| ==> Inner(q[i])
    ensures |Names(q)| > 0 && Names(q)[0] != '/'
    ensures Split(Names(q))[0] != "."
    ensures Segments(Split(Names(q))) == q
    decreases |q|
  {
    var c := q[0];
    var first := if c == ParentDir then ".." else c.name;
    assert '/' !in first && first != "" && first != ".";
    assert Segment(first) == [c];
    if |q| == 1 {
      assert Names(q) == first;
      SplitPlain(first);
      assert Segments([first]) == Segment(first) + Segments([]);
    } else {
      var rest := q[1..];
      NamesRoundTrip(rest);
      assert Names(q) == first + "/" + Names(rest);
      SplitAt(first, Names(rest));
      var parts := [first] + Split(Names(rest));
      assert parts[0] == first && parts[1..] == Split(Names(rest));
      assert Segments(parts) == Segment(first) + Segments(Split(Names(rest)));
      assert [c] + rest == q;
    }
  }

  /** Parsing the text of a well-formed path gives the path back. */
  lemma ComponentsDisplay(p: Path)
    requires WellFormed(p)
    ensures Components(Display(p)) == p
  {
    if p == [] {
      assert Split("") == [""];
    } else if p[0] == RootDir {
      var q := p[1..];
      assert forall i :: 0 <= i < |q| ==> Inner(q[i]) by {
        forall i | 0 <= i < |q| ensures Inner(q[i]) {
          assert q[i] == p[i + 1];
        }
      }
      if q == [] {
        assert Display(p) == "/";
        assert Display(p)[1..] == "";
        assert Split("") == [""];
        assert Segments([""]) == Segment("") + Segments([]);
      } else {
        NamesRoundTrip(q);
        assert Display(p) == "/" + Names(q);
        assert Display(p)[1..] == Names(q);
      }
      assert [RootDir] + q == p;
    } else if p[0] == CurDir {
      var q := p[1..];
      assert forall i :: 0 <= i < |q| ==> Inner(q[i]) by {
        forall i | 0 <= i < |q| ensures Inner(q[i]) {
          assert q[i] == p[i + 1];
        }
      }
      if q == [] {
        assert Display(p) == ".";
        SplitPlain(".");
      } else {
        NamesRoundTrip(q);
        assert Display(p) == "." + "/" + Names(q);
        SplitAt(".", Names(q));
        assert Split(Display(p))[1..] == Split(Names(q));
      }
      assert [CurDir] + q == p;
    } else {
      NamesRoundTrip(p);
    }
  }
}

=== FILE: saving.dfy ===
/**
 * `save_file`: the overwrite check, the truncating create, and the fold that appends each
 * chunk to the file while counting the bytes written.
 */
module Saving {
  import opened Errors
  import opened Paths
  import opened FileStore
  import opened Multipart

  const ALREADY_EXISTS := "File already exists, and the overwrite_files option has not been set"
  const WRITE_FAILED := "Failed to write to file"

  /** The bytes a run of chunks has put in the file and the fold's result. */
  datatype Poured = Poured(written: seq<byte>, result: Result<int>)

  predicate AllBytes(body: seq<Chunk>) {
    forall i :: 0 <= i < |body| ==> body[i].Bytes?
  }

  /** Everything the chunks carry, in order. */
  function Concat(body: seq<Chunk>): seq<byte> {
    if body == [] then []
    else
      var last := body[|body| - 1];
      Concat(body[..|body| - 1]) + (if last.Interrupted? then [] else last.data)
  }

  /**
   * The fold of save_file over the chunks, starting from count 0: each chunk is appended and
   * its length added to the count; the first failing chunk ends the fold with its error.
   */
  function Pour(body: seq<Chunk>): (r: Poured)
    ensures r.result.Ok? ==> r.result.value == |r.written|
    ensures r.result.Err? ==> r.result.error == MultipartError || r.result.error == IOError(WRITE_FAILED, Other)
  {
    if body == [] then Poured([], Ok(0))
    else
      var prev := Pour(body[..|body| - 1]);
      if prev.result.Err? then prev
      else match body[|body| - 1]
        case Bytes(d) => Poured(prev.written + d, Ok(prev.result.value + |d|))
        case Unwritable(_) => Poured(prev.written, Err(IOError(WRITE_FAILED, Other)))
        case Interrupted => Poured(prev.written, Err(MultipartError))
  }

  /**
   * The fold succeeds exactly when every chunk is written, and then the file holds the
   * concatenation of the chunks and the count is its length.
   */
  lemma {:induction false} PourAllBytes(body: seq<Chunk>)
    ensures Pour(body).result.Ok? <==> AllBytes(body)
    ensures AllBytes(body) ==> Pour(body) == Poured(Concat(body), Ok(|Concat(body)|))
    decreases |body|
  {
    if body != [] {
      var init := body[..|body| - 1];
      PourAllBytes(init);
      if !AllBytes(init) {
        var i :| 0 <= i < |init| && !init[i].Bytes?;
        assert !body[i].Bytes?;
      }
      if AllBytes(body) {
        assert AllBytes(init);
      }
    }
  }

  /** Once the fold has failed on a prefix, the chunks after it change nothing. */
  lemma {:induction false} PourStops(body: seq<Chunk>, k: nat)
    requires k <= |body|
    requires Pour(body[..k]).result.Err?
    ensures Pour(body) == Pour(body[..k])
    decreases |body| - k
  {
    if k < |body| {
      var b1 := body[..k + 1];
      assert b1[..|b1| - 1] == body[..k];
      assert Pour(b1) == Pour(body[..k]);
      PourStops(body, k + 1);
    } else {
      assert body[..k] == body;
    }
  }

  /**
   * A run of written chunks followed by one the disk or the stream refuses: the file keeps
   * the run and the fold reports the refused chunk's error.
   */
  lemma PourFailStep(init: seq<Chunk>, last: Chunk)
    requires AllBytes(init) && !last.Bytes?
    ensures Pour(init + [last]) ==
      Poured(Concat(init), Err(if last.Interrupted? then MultipartError else IOError(WRITE_FAILED, Other)))
  {
    var body := init + [last];
    assert body[..|body| - 1] == init && body[|body| - 1] == last;
    PourAllBytes(init);
  }

  /**
   * When chunk k is the first that fails, the file keeps exactly the chunks before it and
   * the fold reports that chunk's error.
   */
  lemma PourPartial(body: seq<Chunk>, k: nat)
    requires k < |body| && AllBytes(body[..k]) && !body[k].Bytes?
    ensures Pour(body).written == Concat(body[..k])
    ensures Pour(body).result == Err(if body[k].Interrupted? then MultipartError else IOError(WRITE_FAILED, Other))
  {
    PourFailAt(body, k);
    PourStops(body, k + 1);
  }

  /** PourFailStep for the prefix of `body` that ends at chunk k. */
  lemma PourFailAt(body: seq<Chunk>, k: nat)
    requires k < |body| && AllBytes(body[..k]) && !body[k].Bytes?
    ensures Pour(body[..k + 1]) ==
      Poured(Concat(body[..k]), Err(if body[k].Interrupted? then MultipartError else IOError(WRITE_FAILED, Other)))
  {
    assert body[..k + 1] == body[..k] + [body[k]];
    PourFailStep(body[..k], body[k]);
  }

  /**
   * save_file on the filesystem `s`: without the overwrite option an existing destination
   * is an error and nothing is touched; otherwise the file is created empty (which fails on
   * a directory, a missing or read-only parent) and the chunks are poured into it.
   */
  function SaveSpec(s: Store, path: Path, overwrite: bool, body: seq<Chunk>): (r: Effect<int>)
    ensures r.store == s || (Resolve(s, path) in r.store.files
      && r.store == s.(files := s.files[Resolve(s, path) := r.store.files[Resolve(s, path)]]))
    ensures r.result.Ok? ==>
      Resolve(s, path) in r.store.files && r.result.value == |r.store.files[Resolve(s, path)]|
    ensures (overwrite || !Exists(s, path)) && CreateError(s, Resolve(s, path)).Some? ==>
      r == Effect(s, Err(IOError("Failed to create " + Display(path), CreateError(s, Resolve(s, path)).value)))
  {
    if !overwrite && Exists(s, path) then Effect(s, Err(CustomError(ALREADY_EXISTS)))
    else
      var n := Resolve(s, path);
      match CreateError(s, n)
      case Some(e) => Effect(s, Err(IOError("Failed to create " + Display(path), e)))
      case None =>
        var p := Pour(body);
        Effect(s.(files := s.files[n := p.written]), p.result)
  }

  /** An existing destination without the overwrite option: the error, and the store unchanged. */
  lemma NoOverwrite(s: Store, path: Path, body: seq<Chunk>)
    requires Exists(s, path)
    ensures SaveSpec(s, path, false, body) == Effect(s, Err(CustomError(ALREADY_EXISTS)))
  {
  }

  /**
   * When save_file succeeds: the destination may be written, it could be created, every chunk
   * was written, the destination holds exactly their concatenation whatever it held before,
   * the count is the number of bytes, and nothing else changed. Both directions.
   */
  lemma SaveSucceeds(s: Store, path: Path, overwrite: bool, body: seq<Chunk>)
    ensures SaveSpec(s, path, overwrite, body).result.Ok? <==>
      (overwrite || !Exists(s, path)) && CreateError(s, Resolve(s, path)).None? && AllBytes(body)
    ensures SaveSpec(s, path, overwrite, body).result.Ok? ==>
      var e := SaveSpec(s, path, overwrite, body);
      && e.store == s.(files := s.files[Resolve(s, path) := Concat(body)])
      && e.result.value == |Concat(body)|
  {
    PourAllBytes(body);
  }

  /**
   * With the overwrite option, an existing regular file is replaced by the chunks, whether or
   * not its directory is read-only: truncation needs only the file's own permission.
   */
  lemma OverwriteExisting(s: Store, path: Path, body: seq<Chunk>)
    requires Resolve(s, path) in s.files && Resolve(s, path) !in s.dirs && AllBytes(body)
    ensures SaveSpec(s, path, true, body)
      == Effect(s.(files := s.files[Resolve(s, path) := Concat(body)]), Ok(|Concat(body)|))
  {
    SaveSucceeds(s, path, true, body);
  }

  /**
   * When chunk k is the first the disk or the stream refuses, the destination keeps the
   * chunks before it (no rollback) and the error is that chunk's.
   */
  lemma SavePartial(s: Store, path: Path, overwrite: bool, body: seq<Chunk>, k: nat)
    requires overwrite || !Exists(s, path)
    requires CreateError(s, Resolve(s, path)).None?
    requires k < |body| && AllBytes(body[..k]) && !body[k].Bytes?
    ensures var e := SaveSpec(s, path, overwrite, body);
      && e.store == s.(files := s.files[Resolve(s, path) := Concat(body[..k])])
      && e.result == Err(if body[k].Interrupted? then MultipartError else IOError(WRITE_FAILED, Other))
  {
    PourPartial(body, k);
  }

  /** save_file keeps the filesystem well formed. */
  lemma SaveKeepsValid(s: Store, path: Path, overwrite: bool, body: seq<Chunk>)
    ensures Valid(s) ==> Valid(SaveSpec(s, path, overwrite, body).store)
    ensures SaveSpec(s, path, overwrite, body).store.dirs == s.dirs
    ensures SaveSpec(s, path, overwrite, body).store.cwd == s.cwd
    ensures s.files.Keys <= SaveSpec(s, path, overwrite, body).store.files.Keys
  {
  }
}

=== FILE: upload.dfy ===
/**
 * `upload_file` and `create_error_response`: the return path, the `path` parameter and the
 * containment gate, then the multipart stream, and the response that reports the outcome.
 */
module Upload {
  import opened Errors
  import opened Paths
  import opened FileStore
  import opened Multipart
  import opened Handling

  const SEE_OTHER := 303
  const BAD_REQUEST := 400
  const INTERNAL_SERVER_ERROR := 500

  const MISSING_PATH := "Missing query parameter 'path'"
  const INVALID_PATH := "Invalid value for 'path' parameter"
  const ROOT_UNRESOLVED := "Failed to resolve path served by miniserve"

  /** The parts of an upload request this core reads: the Referer header, the `path` query parameter, the body. */
  datatype Request = Request(referer: Option<seq<byte>>, path: Option<string>, body: seq<Item>)

  /** The server configuration: the served directory and the overwrite option. */
  datatype Config = Config(root: string, overwriteFiles: bool)

  /**
   * A 303 redirect, or an error page: `status` is the HTTP status it is sent with,
   * `errorCode` the status shown on the rendered page.
   */
  datatype Response =
    | SeeOther(location: string)
    | ErrorPage(status: int, description: ContextualError, errorCode: int, returnPath: string)

  datatype Reply = Reply(store: Store, response: Response)

  /** HeaderValue::to_str succeeds exactly on tabs and visible ASCII. */
  predicate VisibleAscii(v: seq<byte>) {
    forall i :: 0 <= i < |v| ==> v[i] == 9 || 32 <= v[i] < 127
  }

  /** The bytes of a header read as characters, one per byte. */
  function Text(v: seq<byte>): (t: string)
    ensures |t| == |v| && forall i :: 0 <= i < |v| ==> t[i] as int == v[i] as int
  {
    seq(|v|, i requires 0 <= i < |v| => (v[i] as int) as char)
  }

  /** The page to return to: the Referer header when it is present and valid text, otherwise "/". */
  function ReturnPath(referer: Option<seq<byte>>): (p: string)
    ensures referer.Some? && VisibleAscii(referer.value) ==>
      |p| == |referer.value| && forall i :: 0 <= i < |p| ==> p[i] as int == referer.value[i] as int
    ensures referer.None? || !VisibleAscii(referer.value) ==> p == "/"
  {
    match referer
    case Some(v) => if VisibleAscii(v) then Text(v) else "/"
    case None => "/"
  }

  /** The `path` parameter with a leading root component stripped; None when it is missing. */
  function UploadPath(path: Option<string>): (r: Option<Path>)
    ensures r.Some? <==> path.Some?
    ensures r.Some? ==> forall i :: 0 <= i < |r.value| ==> r.value[i] != RootDir
  {
    match path
    case Some(p) => Some(StripRoot(Components(p)))
    case None => None
  }

  /**
   * The target directory: the upload path joined onto the canonical root and canonicalized,
   * accepted only when it starts, component by component, with the root.
   */
  function ResolveTarget(s: Store, root: Path, upload: Path): (t: Option<Path>)
    ensures t.Some? <==> Exists(s, Join(root, upload)) && StartsWith(Resolve(s, Join(root, upload)), root)
    ensures t.Some? ==> StartsWith(t.value, root)
    ensures t.Some? ==> t.value == Resolve(s, Join(root, upload)) && Exists(s, Join(root, upload))
    ensures t.Some? && Canonical(s.cwd) ==> Canonical(t.value) && (t.value in s.dirs || t.value in s.files)
  {
    match Canonicalize(s, Join(root, upload))
    case Some(c) => if StartsWith(c, root) then Some(c) else None
    case None => None
  }

  /** The HTTP status a response is sent with. */
  function Status(r: Response): int {
    if r.SeeOther? then SEE_OTHER else r.status
  }

  /** The error page for a failed upload: always sent as 400, whatever code it shows. */
  function CreateErrorResponse(description: ContextualError, errorCode: int, returnPath: string): (r: Response)
    ensures r.ErrorPage? && Status(r) == BAD_REQUEST
    ensures r.description == description && r.errorCode == errorCode && r.returnPath == returnPath
  {
    ErrorPage(BAD_REQUEST, description, errorCode, returnPath)
  }

  /** The target directory of a request, when its path is given, the root resolves and the gate accepts. */
  function Target(s: Store, req: Request, cfg: Config): Option<Path> {
    match UploadPath(req.path)
    case None => None
    case Some(upload) =>
      (match Canonicalize(s, Components(cfg.root))
       case None => None
       case Some(root) => ResolveTarget(s, root, upload))
  }

  /** upload_file on the filesystem `s`: the new filesystem and the response. */
  function UploadSpec(s: Store, req: Request, cfg: Config): (r: Reply)
    ensures Status(r.response) == SEE_OTHER || Status(r.response) == BAD_REQUEST
    ensures r.response.SeeOther? ==> r.response.location == ReturnPath(req.referer)
    ensures r.response.ErrorPage? ==> r.response.returnPath == ReturnPath(req.referer)
    ensures r.store.cwd == s.cwd && r.store.dirs == s.dirs
  {
    var returnPath := ReturnPath(req.referer);
    match UploadPath(req.path)
    case None => Reply(s, CreateErrorResponse(InvalidHTTPRequestError(MISSING_PATH), BAD_REQUEST, returnPath))
    case Some(upload) =>
      (match Canonicalize(s, Components(cfg.root))
       case None =>
         Reply(s, CreateErrorResponse(IOError(ROOT_UNRESOLVED, NotFound), INTERNAL_SERVER_ERROR, returnPath))
       case Some(root) =>
         (match ResolveTarget(s, root, upload)
          case None => Reply(s, CreateErrorResponse(InvalidHTTPRequestError(INVALID_PATH), BAD_REQUEST, returnPath))
          case Some(target) =>
            var e := HandleItems(s, req.body, target, cfg.overwriteFiles);
            Reply(e.store,
              if e.result.Ok? then SeeOther(returnPath)
              else CreateErrorResponse(e.result.error, INTERNAL_SERVER_ERROR, returnPath))))
  }

  /** A missing `path` parameter is reported before the root is looked at, and nothing is written. */
  lemma MissingPath(s: Store, req: Request, cfg: Config)
    requires req.path.None?
    ensures UploadSpec(s, req, cfg) ==
      Reply(s, ErrorPage(BAD_REQUEST, InvalidHTTPRequestError(MISSING_PATH), BAD_REQUEST, ReturnPath(req.referer)))
  {
  }

  /** A root that cannot be resolved shows code 500 on a page still sent as 400, and nothing is written. */
  lemma RootUnresolved(s: Store, req: Request, cfg: Config)
    requires req.path.Some? && Canonicalize(s, Components(cfg.root)).None?
    ensures UploadSpec(s, req, cfg) ==
      Reply(s, ErrorPage(BAD_REQUEST, IOError(ROOT_UNRESOLVED, NotFound), INTERNAL_SERVER_ERROR, ReturnPath(req.referer)))
  {
  }

  /** A target the gate refuses is reported as an invalid `path`, and nothing is written. */
  lemma Rejected(s: Store, req: Request, cfg: Config)
    requires req.path.Some? && Canonicalize(s, Components(cfg.root)).Some? && Target(s, req, cfg).None?
    ensures UploadSpec(s, req, cfg) ==
      Reply(s, ErrorPage(BAD_REQUEST, InvalidHTTPRequestError(INVALID_PATH), BAD_REQUEST, ReturnPath(req.referer)))
  {
  }

  /**
   * The gate: an accepted target is canonical, exists and lies under the canonical root, and
   * the body is then handled as its flattened leaves, in order, all under that target.
   */
  lemma Gate(s: Store, req: Request, cfg: Config)
    requires Valid(s) && req.path.Some? && Canonicalize(s, Components(cfg.root)).Some?
    ensures var root := Canonicalize(s, Components(cfg.root)).value;
      && Canonical(root)
      && (Target(s, req, cfg).Some? ==>
          var t := Target(s, req, cfg).value;
          && Canonical(t) && StartsWith(t, root) && (t in s.dirs || t in s.files)
          && UploadSpec(s, req, cfg).store == HandleItems(s, Flatten(req.body), t, cfg.overwriteFiles).store)
  {
    var root := Canonicalize(s, Components(cfg.root)).value;
    if Target(s, req, cfg).Some? {
      FlattenPreserves(s, req.body, Target(s, req, cfg).value, cfg.overwriteFiles);
    }
  }

  /**
   * Every request ends in a 303 redirect to the return path or in an error page sent with
   * status 400; the redirect comes exactly when the target was accepted and every part was
   * saved. A failed part's error is shown on the page with code 500 (FirstFailure: it is the
   * error of the first part that failed). Either way directories never change and files are
   * only added.
   */
  lemma ResponseOutcome(s: Store, req: Request, cfg: Config)
    ensures var r := UploadSpec(s, req, cfg);
      && (r.response.SeeOther? <==>
          Target(s, req, cfg).Some? && HandleItems(s, req.body, Target(s, req, cfg).value, cfg.overwriteFiles).result.Ok?)
      && (r.response.SeeOther? ==> r.response.location == ReturnPath(req.referer))
      && Status(r.response) == (if r.response.SeeOther? then SEE_OTHER else BAD_REQUEST)
      && (Target(s, req, cfg).Some? ==>
          var e := HandleItems(s, req.body, Target(s, req, cfg).value, cfg.overwriteFiles);
          e.result.Err? ==>
            r.response == ErrorPage(BAD_REQUEST, e.result.error, INTERNAL_SERVER_ERROR, ReturnPath(req.referer)))
      && Grows(s, r.store)
  {
    if Target(s, req, cfg).Some? {
      ItemsGrow(s, req.body, Target(s, req, cfg).value, cfg.overwriteFiles);
    }
  }

  /**
   * The client's path is taken relative to the served root, never the filesystem root: a
   * `path` that does not climb with `..` and names an existing entry is always accepted.
   */
  lemma DescentAccepted(s: Store, root: Path, text: string)
    requires Canonical(s.cwd) && Canonical(root)
    requires forall i :: 0 <= i < |Components(text)| ==> Components(text)[i] != ParentDir
    requires Exists(s, Join(root, UploadPath(Some(text)).value))
    ensures ResolveTarget(s, root, UploadPath(Some(text)).value).Some?
  {
    var q := UploadPath(Some(text)).value;
    var p := Components(text);
    var tail := if |q| > 0 && q[0] == CurDir then q[1..] else q;
    assert Join(root, q) == root + tail;
    forall i | 0 <= i < |tail| ensures tail[i].Normal? || tail[i] == CurDir {
      var j := if IsAbsolute(p) then (if |q| > 0 && q[0] == CurDir then i + 2 else i + 1)
               else (if |q| > 0 && q[0] == CurDir then i + 1 else i);
      assert tail[i] == p[j];
    }
    WalkAppend(s.cwd, root, tail);
    CanonicalIsFixed(s.cwd, root);
    assert StartsWith(root, root);
    WalkKeepsPrefix(root, root, tail);
  }

  /** The served root /srv/www on a filesystem where it exists. */
  predicate ServesSrvWww(s: Store, cfg: Config) {
    Canonical(s.cwd) && cfg.root == "/srv/www" && [RootDir, Normal("srv"), Normal("www")] in s.dirs
  }

  /**
   * `path=../../etc` against the root /srv/www climbs out of it: rejected as an invalid
   * `path`, nothing written.
   */
  lemma EscapeRejected(s: Store, req: Request, cfg: Config)
    requires ServesSrvWww(s, cfg)
    requires req.path == Some("../../etc")
    ensures UploadSpec(s, req, cfg) ==
      Reply(s, ErrorPage(BAD_REQUEST, InvalidHTTPRequestError(INVALID_PATH), BAD_REQUEST, ReturnPath(req.referer)))
  {
    SrvWwwComponents();
    ClimbComponents();
    ClimbRejected(s, req, cfg);
  }

  /** EscapeRejected once both texts are read as components. */
  lemma ClimbRejected(s: Store, req: Request, cfg: Config)
    requires Canonical(s.cwd) && [RootDir, Normal("srv"), Normal("www")] in s.dirs
    requires Components(cfg.root) == [RootDir, Normal("srv"), Normal("www")]
    requires req.path.Some? && Components(req.path.value) == [ParentDir, ParentDir, Normal("etc")]
    ensures UploadSpec(s, req, cfg) ==
      Reply(s, ErrorPage(BAD_REQUEST, InvalidHTTPRequestError(INVALID_PATH), BAD_REQUEST, ReturnPath(req.referer)))
  {
    var root := [RootDir, Normal("srv"), Normal("www")];
    CanonicalIsFixed(s.cwd, root);
    assert Canonicalize(s, Components(cfg.root)) == Some(root);
    ClimbOut(s.cwd);
    assert Target(s, req, cfg).None?;
    Rejected(s, req, cfg);
  }

  /** Two levels up from /srv/www is /, so /srv/www/../../etc is /etc. */
  lemma ClimbOut(cwd: Path)
    ensures var root := [RootDir, Normal("srv"), Normal("www")];
      Walk(cwd, Join(root, [ParentDir, ParentDir, Normal("etc")])) == [RootDir, Normal("etc")]
  {
    var root := [RootDir, Normal("srv"), Normal("www")];
    var upload := [ParentDir, ParentDir, Normal("etc")];
    assert Join(root, upload) == root + upload;
    WalkAppend(cwd, root, upload);
    CanonicalIsFixed(cwd, root);
    var a1 := Step(root, ParentDir);
    assert a1 == [RootDir, Normal("srv")];
    var a2 := Step(a1, ParentDir);
    assert a2 == [RootDir];
    assert upload[1..][1..] == [Normal("etc")];
    assert Walk(a2, [Normal("etc")]) == [RootDir, Normal("etc")];
  }

  lemma SrvWwwComponents()
    ensures Components("/srv/www") == [RootDir, Normal("srv"), Normal("www")]
  {
    assert "/srv/www"[1..] == "srv" + "/" + "www";
    SplitAt("srv", "www");
    SplitPlain("www");
    assert Segments(["srv", "www"]) == [Normal("srv"), Normal("www")] by {
      assert Segments(["www"]) == [Normal("www")];
    }
  }

  lemma ClimbComponents()
    ensures Components("../../etc") == [ParentDir, ParentDir, Normal("etc")]
  {
    ClimbSplit();
    assert Segments(["..", "..", "etc"]) == [ParentDir, ParentDir, Normal("etc")] by {
      assert Segments(["etc"]) == [Normal("etc")];
      assert Segments(["..", "etc"]) == [ParentDir, Normal("etc")];
    }
  }

  lemma ClimbSplit()
    ensures Split("../../etc") == ["..", "..", "etc"]
  {
    assert "../../etc" == ".." + "/" + (".." + "/" + "etc");
    SplitAt("..", ".." + "/" + "etc");
    SplitAt("..", "etc");
    SplitPlain("etc");
  }

  /** A successful upload with `Referer: /foo` redirects to /foo. */
  lemma RedirectToReferer(s: Store, req: Request, cfg: Config)
    requires req.referer == Some([47, 102, 111, 111])
    requires Target(s, req, cfg).Some?
    requires HandleItems(s, req.body, Target(s, req, cfg).value, cfg.overwriteFiles).result.Ok?
    ensures UploadSpec(s, req, cfg).response == SeeOther("/foo")
  {
    ResponseOutcome(s, req, cfg);
    FooReturnPath();
  }

  lemma FooReturnPath()
    ensures ReturnPath(Some([47, 102, 111, 111])) == "/foo"
  {
    assert VisibleAscii([47, 102, 111, 111]);
  }
}
